=== FILE: README.md ===
# Feature search and cross-highlight engine

A Dafny model of the search box of the historic-buildings map page
(`script.js`). While the user types, the page searches three GeoJSON
collections loaded at start-up — survey points, building footprints and
cadastral parcels — and produces:

- the ordered list of tagged matches (`point`, `building`, `parcel`);
- the "highlight points" collection (the matched points);
- the "highlight geometries" collection: for each matched point, the
  first building with the same code and the first parcel with the same plot number
  (looked up with `find`), then every matched building, then every matched
  parcel — with no deduplication;

and, for every match, the label shown in the result list and the position
the map flies to when it is clicked.

Modules:

- `Wrappers` (`wrappers.dfy`): `Option`.
- `Seqs` (`seqs.dfy`): generic filtering and flat-mapping, the shapes of the
  handler's `forEach` + `push` loops.
- `Text` (`text.dfy`): `toLowerCase` restricted to ASCII, and `includes` as a
  left-to-right scan proved equal to "occurs at some position".
- `Features` (`features.dfy`): positions, geometries, features with a
  `map<string, string>` of attributes, the store of the three collections,
  the attribute names, and JavaScript truthiness of a string attribute.
- `CrossReference` (`crossref.dfy`): `find` by strict attribute equality and
  the point → building / parcel lookups.
- `SearchEngine` (`search.dfy`): the match tests, the declarative `Search`,
  and the handler's own loops (`ScanPoints`, `LinkPoint`, `ScanPolygons`,
  `HandleInput`), proved to compute `Search`.
- `SearchProperties` (`properties.dfy`): the threshold, membership, order
  and highlight-collection properties of `Search`.
- `Projector` (`projector.dfy`): result labels and fly-to targets.
- `Scenarios` (`scenarios.dfy`): worked instances on a one-point store.

Details of the handler the model follows:

- The points' searched attributes are named `data-A-BldgName`,
  `data-A-Street` and `data-A-Period`, and the cross-reference keys are
  `data-A-BldgCode` and `data-A-PlotNo`. Buildings use `BldgCode`, and parcels
  use `PlotNo` and `PID`.
- Every attribute test is a truthiness test. An empty string is treated like
  an absent attribute, both for matching and for the cross-reference lookup.
- The `> 2` length test is applied to the lowered query.

## Model

| member | source | states |
|---|---|---|
| Text.Includes | script.js:192-194 | `includes` answers true exactly when the query occurs at some position of the lowered attribute value |
| Text.Lower | script.js:181 | lowering keeps the length, turns each upper-case letter into its lower-case partner, leaves no upper-case letter and changes no other character (ASCII model) |
| Features.OrElse | script.js:249-255 | the logical-or fallback `properties[key] or fallback` is the attribute when it is non-empty and the fallback otherwise, so a non-empty fallback gives a non-empty text |
| SearchEngine.AttrContains | script.js:192-194 | an attribute test holds exactly when the attribute is non-empty and the query occurs somewhere in its lowered value, which is then at least as long as the query |
| SearchEngine.Matches | script.js:192-234 | a feature matches exactly when one of its layer's searched attributes (name, street, period for points; code for buildings; plot number, PID for parcels) contains the query |
| CrossReference.FirstIndexWith | script.js:203-205 | the scan stops at the first feature whose attribute strictly equals the value, or runs off the end when none does |
| CrossReference.Find | script.js:203-205 | `find` returns a feature exactly when some feature carries the value, and then it returns the first such feature |
| CrossReference.FindReturnsFirst | script.js:211-213 | whatever follows the first match, `find` returns that first match (deterministic first-match lookup) |
| CrossReference.BuildingRef | script.js:199-209 | a matched point adds one building exactly when its building code is non-empty and some building has that code, and the building added is the first one with that code |
| CrossReference.ParcelRef | script.js:210-217 | a matched point adds one parcel exactly when its plot number is non-empty and some parcel has that plot number, and the parcel added is the first one with it |
| CrossReference.CrossRefsLayout | script.js:199-217 | a point adds one geometry per successful lookup: the first building with its code at the front, the first parcel with its plot number at the back |
| Seqs.Filter | script.js:190-194 | the kept features are exactly the features of the collection that pass the layer's match test |
| Seqs.MatchingIndices | script.js:222-224 | the positions of the matching features, strictly ascending, and every matching position is among them |
| Seqs.FilterIsMatchingSubsequence | script.js:231-234 | the k-th kept feature is the feature at the k-th matching position, so collection order is kept |
| SearchEngine.ScanPoints | script.js:190-219 | the points loop pushes exactly the matching points as results and highlight points, and their lookups as highlight geometries, point by point |
| SearchEngine.LinkPoint | script.js:199-217 | the two guarded `find` calls and pushes add exactly the point's building and then its parcel |
| SearchEngine.ScanPolygons | script.js:222-238 | the buildings loop and the parcels loop push exactly the matching features, in collection order, as results and as highlight geometries |
| SearchEngine.HandleInput | script.js:180-238 | the handler, run as three scans after the length test, produces exactly the declarative search outcome |
| SearchProperties.ShortQueryClears | script.js:184-188 | a lowered query of at most two characters gives no results and two empty highlight collections, whatever the data |
| SearchProperties.NoResultsIff | script.js:188-238 | the result list is empty exactly when the query is too short or nothing in any layer matches it, and then both highlight collections are empty |
| SearchProperties.QueryCaseIrrelevant | script.js:181 | only the lowered query matters, so the typed text and its lowered form give the same outcome |
| SearchProperties.ResultMembershipIff | script.js:188-238 | a feature is returned under a layer's tag exactly when the query is long enough, the feature is in that layer, and one of that layer's searched attributes is non-empty and contains the query once lowered |
| SearchProperties.ResultCount | script.js:180-238 | each layer contributes no more results than its collection holds features, so the result list is never longer than the three collections together |
| SearchProperties.ResultsGroupedByLayer | script.js:190-238 | all point results come before all building results, and all building results come before all parcel results |
| SearchProperties.GroupsAreFilters | script.js:190-238 | the results of each layer, in order, are exactly the filter of that layer's collection |
| SearchProperties.HighlightPointsArePointResults | script.js:195-196 | the highlight points are exactly the features of the point results, in the same order and number |
| SearchProperties.JoinLength | script.js:202-217 | the matched points add one geometry for every building lookup that succeeds and one for every parcel lookup that succeeds |
| SearchProperties.HighlightGeometriesLayout | script.js:184-236 | for every query, the highlight geometries are the point lookups, then the matched buildings, then the matched parcels; their count is the successful lookups plus the building and parcel result counts |
| SearchProperties.DuplicatesKept | script.js:202-207 | two matching points with the same building code both add the building it resolves to, so that building is highlighted at least twice |
| Projector.Label | script.js:248-255 | labels are never empty; building labels start with "Building: " and parcel labels with "Parcel: ", followed by at least one character |
| Projector.LabelNamesFeature | script.js:248-255 | a building or parcel label without its prefix is the code or plot number, or "Unknown"; a point label is its name, else its street, else "Point" |
| Projector.FlyTarget | script.js:250-256 | for a well-shaped geometry, the fly-to target is one of the feature's own positions: a point's coordinates, or `coordinates[0][0][0]` of a MultiPolygon |
| Projector.ProjectAll | script.js:241-257 | the result list has one entry per match, in match order, each holding that match's label and fly-to target |
| Projector.SearchResultsFlyable | script.js:240-256 | when every feature has the geometry its layer's fly-to code expects, every search result can be projected, and the result list gets one entry per match |
| Scenarios.SaifiQueryFindsPoint | script.js:190-196 | the query "saifi" on a single point named "Saifi House" returns that point once, highlights it, and labels it "Saifi House" |
| Scenarios.UpperCaseQuerySame | script.js:181 | typing "SAIFI" or "saifi" gives the same outcome |
| Scenarios.EmptyQueryClears | script.js:271-275 | an empty query clears the results and both highlight collections |

## Left out

- Map style, sources, layers and paint expressions (script.js:1-51, 68-148). These are declarative settings for the map library.
- Loading the three GeoJSON files with `fetch` and `Promise.all` (script.js:57-66). This is network I/O. The loaded collections are the `Store` input.
- The hover popup and the longitude-wrapping loop (script.js:155-174). This is DOM glue and floating-point arithmetic.
- Building the result list in the DOM, the click handlers, `map.flyTo` and `setData` (script.js:243-247, 259-269, 273-274). These are rendering side effects. The model returns their inputs instead: `SearchOutput` and the `Item` list.
- The `if (coordinatesToFlyTo)` test inside the click handler (script.js:261). For the shapes Projector.FlyTarget requires, the target is a position array, so the test always passes. For other shapes it can fail: a MultiPolygon with an empty first ring gives `undefined`, and a Polygon gives a bare number, which is falsy when the longitude is 0.
- The "locate me" button (script.js:278-295). It is a platform geolocation call plus alerts.
- Text.Lower: lowers only the ASCII letters A-Z. JavaScript's full Unicode lower-casing can change other characters and even the string length. The model also counts length in characters, not UTF-16 code units.
- Attribute values that are not strings (numbers, booleans) are not modelled. A JSON `null` is modelled as an absent attribute, which has the same truthiness. On a searched attribute a number would make `toLowerCase` throw.
- Features with `"properties": null`. GeoJSON allows them, but the model gives every feature an attribute map. On such a feature the handler throws a TypeError: in the points test (script.js:192), inside the `find` callbacks (script.js:204, 212), or in the building and parcel tests (script.js:224, 233). The handler then stops after clearing the list (script.js:182), and the highlight sources are never updated.
- Projector.FlyTarget: requires the shape the code assumes (a Point geometry for points; a MultiPolygon with a non-empty first polygon and first ring for buildings and parcels). It does not model what JavaScript does with other shapes: a Polygon gives a bare number, and a Point geometry throws a TypeError.
- Results that are not flyable. The projection loop (script.js:241-266) runs before the two `setData` calls (script.js:268-269). The handler throws there if a building or parcel result has a Point geometry, no polygons, an empty first polygon, or a null geometry. The map then receives neither highlight collection, and the list keeps only the items built before the bad one. Other non-flyable shapes do not throw, but they give a list item with no usable target. These are an empty first ring, a Polygon under the building or parcel tag, and a point result whose geometry is not a Point. So the model's `SearchOutput` reaches the map whenever every result is flyable. Projector.SearchResultsFlyable proves that this holds on a well-shaped store.
- Positions are longitude/latitude pairs of `real`. Optional altitude values are ignored.
- Running a search twice on the same input gives the same outcome. This needs no lemma: `Search` is a function.

=== FILE: crossref.dfy ===
/**
 * The cross-reference join: from a matched point to the building with the
 * same code and the parcel with the same plot number, each found with
 * `Array.prototype.find` (first match, strict equality, linear scan).
 */
module CrossReference {

  import opened Wrappers
  import opened Features

  /** Position `j` holds the first feature of `fs` whose `key` equals `value`. */
  ghost predicate IsFirstWith(fs: seq<Feature>, key: string, value: string, j: int)
  {
    && 0 <= j < |fs|
    && HasValue(fs[j], key, value)
    && forall k :: 0 <= k < j ==> !HasValue(fs[k], key, value)
  }

  /** The index that `find` stops at, or None when it runs off the end. */
  function FirstIndexWith(fs: seq<Feature>, key: string, value: string): (r: Option<nat>)
    ensures r.Some? ==> IsFirstWith(fs, key, value, r.value)
    ensures r.None? ==> forall k :: 0 <= k < |fs| ==> !HasValue(fs[k], key, value)
    decreases |fs|
  {
    if fs == [] then None
    else if HasValue(fs[0], key, value) then Some(0)
    else
      match FirstIndexWith(fs[1..], key, value)
      case None => None
      case Some(k) => Some(k + 1)
  }

  /** `fs.find(f => f.properties[key] === value)`. */
  function Find(fs: seq<Feature>, key: string, value: string): (r: Option<Feature>)
    ensures r.Some? <==> exists k :: 0 <= k < |fs| && HasValue(fs[k], key, value)
    ensures r.Some? ==> exists j :: IsFirstWith(fs, key, value, j) && r.value == fs[j]
  {
    match FirstIndexWith(fs, key, value)
    case None => None
    case Some(j) => Some(fs[j])
  }

  /** `find` is deterministic in what it returns: the first match, whatever follows it. */
  lemma FindReturnsFirst(fs: seq<Feature>, key: string, value: string, j: int)
    requires IsFirstWith(fs, key, value, j)
    ensures Find(fs, key, value) == Some(fs[j])
  {
  }

  /** Some building carries the point's (non-empty) building code. */
  ghost predicate ResolvesBuilding(p: Feature, buildings: seq<Feature>)
  {
    && Truthy(p, POINT_BLDG_CODE)
    && exists k :: 0 <= k < |buildings| && HasValue(buildings[k], BLDG_CODE, p.properties[POINT_BLDG_CODE])
  }

  /** Some parcel carries the point's (non-empty) plot number. */
  ghost predicate ResolvesParcel(p: Feature, parcels: seq<Feature>)
  {
    && Truthy(p, POINT_PLOT_NO)
    && exists k :: 0 <= k < |parcels| && HasValue(parcels[k], PLOT_NO, p.properties[POINT_PLOT_NO])
  }

  /** The building highlighted on behalf of point `p`: zero or one features. */
  function BuildingRef(p: Feature, buildings: seq<Feature>): (r: seq<Feature>)
    ensures |r| == (if ResolvesBuilding(p, buildings) then 1 else 0)
    ensures |r| == 1 ==> exists j :: IsFirstWith(buildings, BLDG_CODE, p.properties[POINT_BLDG_CODE], j) && r[0] == buildings[j]
  {
    if Truthy(p, POINT_BLDG_CODE) then
      match Find(buildings, BLDG_CODE, p.properties[POINT_BLDG_CODE])
      case None => []
      case Some(b) => [b]
    else []
  }

  /** The parcel highlighted on behalf of point `p`: zero or one features. */
  function ParcelRef(p: Feature, parcels: seq<Feature>): (r: seq<Feature>)
    ensures |r| == (if ResolvesParcel(p, parcels) then 1 else 0)
    ensures |r| == 1 ==> exists j :: IsFirstWith(parcels, PLOT_NO, p.properties[POINT_PLOT_NO], j) && r[0] == parcels[j]
  {
    if Truthy(p, POINT_PLOT_NO) then
      match Find(parcels, PLOT_NO, p.properties[POINT_PLOT_NO])
      case None => []
      case Some(c) => [c]
    else []
  }

  /** Everything point `p` adds to the highlight geometries: its building first, then its parcel. */
  function CrossRefs(p: Feature, store: Store): seq<Feature>
  {
    BuildingRef(p, store.buildings) + ParcelRef(p, store.parcels)
  }

  /**
   * A point's contribution: one geometry per successful lookup, the first
   * building with its code at the front and the first parcel with its plot
   * number at the back.
   */
  lemma CrossRefsLayout(p: Feature, store: Store)
    ensures |CrossRefs(p, store)|
         == (if ResolvesBuilding(p, store.buildings) then 1 else 0) + (if ResolvesParcel(p, store.parcels) then 1 else 0)
    ensures ResolvesBuilding(p, store.buildings) ==>
              exists j :: IsFirstWith(store.buildings, BLDG_CODE, p.properties[POINT_BLDG_CODE], j)
                          && CrossRefs(p, store)[0] == store.buildings[j]
    ensures ResolvesParcel(p, store.parcels) ==>
              exists j :: IsFirstWith(store.parcels, PLOT_NO, p.properties[POINT_PLOT_NO], j)
                          && CrossRefs(p, store)[|CrossRefs(p, store)| - 1] == store.parcels[j]
  {
    var b, c := BuildingRef(p, store.buildings), ParcelRef(p, store.parcels);
    assert CrossRefs(p, store) == b + c;
  }

}

=== FILE: features.dfy ===
/**
 * The GeoJSON data the map page loads: features with a geometry and a bag of
 * string attributes, and the store of the three loaded collections.
 */
module Features {

  /** A longitude/latitude pair. */
  datatype Position = Position(lng: real, lat: real)

  /** The geometry kinds the three datasets carry. */
  datatype Geometry =
    | Point(coordinates: Position)
    | Polygon(rings: seq<seq<Position>>)
    | MultiPolygon(polygons: seq<seq<seq<Position>>>)

  /** A feature: its attributes (only the string-valued ones) and its geometry. */
  datatype Feature = Feature(properties: map<string, string>, geometry: Geometry)

  /** The three collections, loaded together and never changed afterwards. */
  datatype Store = Store(points: seq<Feature>, buildings: seq<Feature>, parcels: seq<Feature>)

  // Attribute names read from the points dataset.
  const BLDG_NAME := "data-A-BldgName"
  const STREET := "data-A-Street"
  const PERIOD := "data-A-Period"
  const POINT_BLDG_CODE := "data-A-BldgCode"
  const POINT_PLOT_NO := "data-A-PlotNo"

  // Attribute names read from the buildings and parcels datasets.
  const BLDG_CODE := "BldgCode"
  const PLOT_NO := "PlotNo"
  const PID := "PID"

  /**
   * JavaScript truthiness of `properties[key]` for a string attribute:
   * an absent attribute and the empty string both read as false.
   */
  predicate Truthy(f: Feature, key: string)
  {
    key in f.properties && f.properties[key] != ""
  }

  /** `properties[key] === value`: the attribute is present and strictly equal. */
  predicate HasValue(f: Feature, key: string, value: string)
  {
    key in f.properties && f.properties[key] == value
  }

  /** JavaScript `properties[key] || fallback` for a string attribute. */
  function OrElse(f: Feature, key: string, fallback: string): (s: string)
    ensures Truthy(f, key) ==> s == f.properties[key]
    ensures !Truthy(f, key) ==> s == fallback
    ensures fallback != "" ==> s != ""
  {
    if Truthy(f, key) then f.properties[key] else fallback
  }

}

=== FILE: projector.dfy ===
/**
 * The result projector: for each matched entry, the text shown in the
 * result list and the position the map flies to when it is clicked.
 */
module Projector {

  import opened Features
  import opened SearchEngine
  import SearchProperties

  /** One entry of the result list. */
  datatype Item = Item(text: string, flyTo: Position)

  const BUILDING_PREFIX := "Building: "
  const PARCEL_PREFIX := "Parcel: "
  const UNKNOWN := "Unknown"
  const POINT_FALLBACK := "Point"

  /** `p` is one of the positions that make up geometry `g`. */
  ghost predicate IsVertex(g: Geometry, p: Position)
  {
    match g
    case Point(c) => c == p
    case Polygon(rings) =>
      exists r, k :: 0 <= r < |rings| && 0 <= k < |rings[r]| && rings[r][k] == p
    case MultiPolygon(polygons) =>
      exists q, r, k :: 0 <= q < |polygons| && 0 <= r < |polygons[q]| && 0 <= k < |polygons[q][r]|
                        && polygons[q][r][k] == p
  }

  /**
   * The geometry shape the fly-to code assumes: a point result carries a
   * Point; a building or parcel result a MultiPolygon whose first polygon has
   * a first ring with at least one position.
   */
  predicate Flyable(m: MatchedResult)
  {
    match m.layer
    case Points => m.feature.geometry.Point?
    case _ =>
      && m.feature.geometry.MultiPolygon?
      && |m.feature.geometry.polygons| > 0
      && |m.feature.geometry.polygons[0]| > 0
      && |m.feature.geometry.polygons[0][0]| > 0
  }

  /**
   * The result-list text: a point shows its building name, else its street,
   * else "Point"; a building shows "Building: " and its code, a parcel
   * "Parcel: " and its plot number, with "Unknown" for a missing value.
   */
  function Label(m: MatchedResult): (s: string)
    ensures |s| > 0
    ensures m.layer == Buildings ==> |s| > |BUILDING_PREFIX| && s[..|BUILDING_PREFIX|] == BUILDING_PREFIX
    ensures m.layer == Parcels ==> |s| > |PARCEL_PREFIX| && s[..|PARCEL_PREFIX|] == PARCEL_PREFIX
  {
    match m.layer
    case Points => OrElse(m.feature, BLDG_NAME, OrElse(m.feature, STREET, POINT_FALLBACK))
    case Buildings => BUILDING_PREFIX + OrElse(m.feature, BLDG_CODE, UNKNOWN)
    case Parcels => PARCEL_PREFIX + OrElse(m.feature, PLOT_NO, UNKNOWN)
  }

  /**
   * The label names its feature: cutting the prefix off a building or parcel
   * label gives back the code or plot number (or "Unknown" when there is
   * none), and a point label is its name, failing that its street, failing
   * that "Point".
   */
  lemma LabelNamesFeature(m: MatchedResult)
    ensures m.layer == Buildings ==>
              Label(m)[|BUILDING_PREFIX|..] == (if Truthy(m.feature, BLDG_CODE) then m.feature.properties[BLDG_CODE] else UNKNOWN)
    ensures m.layer == Parcels ==>
              Label(m)[|PARCEL_PREFIX|..] == (if Truthy(m.feature, PLOT_NO) then m.feature.properties[PLOT_NO] else UNKNOWN)
    ensures m.layer == Points && Truthy(m.feature, BLDG_NAME) ==> Label(m) == m.feature.properties[BLDG_NAME]
    ensures m.layer == Points && !Truthy(m.feature, BLDG_NAME) && Truthy(m.feature, STREET) ==>
              Label(m) == m.feature.properties[STREET]
    ensures m.layer == Points && !Truthy(m.feature, BLDG_NAME) && !Truthy(m.feature, STREET) ==>
              Label(m) == POINT_FALLBACK
  {
    var s := Label(m);
    if m.layer == Buildings {
      assert s == BUILDING_PREFIX + OrElse(m.feature, BLDG_CODE, UNKNOWN);
    } else if m.layer == Parcels {
      assert s == PARCEL_PREFIX + OrElse(m.feature, PLOT_NO, UNKNOWN);
    }
  }

  /**
   * Where the map flies: a point's own coordinates; for a building or a
   * parcel, `coordinates[0][0][0]`, the first position of the first ring of
   * the first polygon.
   */
  function FlyTarget(m: MatchedResult): (p: Position)
    requires Flyable(m)
    ensures IsVertex(m.feature.geometry, p)
    ensures m.layer == Points ==> p == m.feature.geometry.coordinates
    ensures m.layer != Points ==> p == m.feature.geometry.polygons[0][0][0]
  {
    match m.layer
    case Points => m.feature.geometry.coordinates
    case _ => m.feature.geometry.polygons[0][0][0]
  }

  /** One result-list entry. */
  function Project(m: MatchedResult): Item
    requires Flyable(m)
  {
    Item(Label(m), FlyTarget(m))
  }

  /** The result list shown for the matched entries, one item per entry, in result order. */
  function ProjectAll(ms: seq<MatchedResult>): (items: seq<Item>)
    requires forall k :: 0 <= k < |ms| ==> Flyable(ms[k])
    ensures |items| == |ms|
    ensures forall k :: 0 <= k < |ms| ==> items[k] == Project(ms[k])
    decreases |ms|
  {
    if ms == [] then []
    else ProjectAll(ms[..|ms| - 1]) + [Project(ms[|ms| - 1])]
  }

  /**
   * Every feature of the store has the geometry its layer's fly-to code
   * expects: Points for the points, non-empty MultiPolygons for the buildings
   * and the parcels.
   */
  ghost predicate WellShaped(store: Store)
  {
    && (forall k :: 0 <= k < |store.points| ==> Flyable(Match(Points, store.points[k])))
    && (forall k :: 0 <= k < |store.buildings| ==> Flyable(Match(Buildings, store.buildings[k])))
    && (forall k :: 0 <= k < |store.parcels| ==> Flyable(Match(Parcels, store.parcels[k])))
  }

  /**
   * On a well-shaped store, every search result can be projected: each entry
   * is a feature of its own layer's collection, so it has that layer's shape,
   * and the result list gets one item per match.
   */
  lemma SearchResultsFlyable(raw: string, store: Store)
    requires WellShaped(store)
    ensures forall k :: 0 <= k < |Search(raw, store).results| ==> Flyable(Search(raw, store).results[k])
    ensures |ProjectAll(Search(raw, store).results)| == |Search(raw, store).results|
  {
    var rs := Search(raw, store).results;
    forall k | 0 <= k < |rs|
      ensures Flyable(rs[k])
    {
      var m := rs[k];
      SearchProperties.ResultMembershipIff(raw, store, m.layer, m.feature);
      assert m.feature in Collection(store, m.layer);
    }
  }

}

=== FILE: properties.dfy ===
/**
 * What the search handler promises, stated over the declarative `Search`
 * (which `HandleInput` is proved to compute): the length threshold, which
 * features are returned, their order, and how the two highlight collections
 * are made up.
 */
module SearchProperties {

  import opened Text
  import opened Features
  import opened CrossReference
  import opened SearchEngine
  import Seqs

  // ---------------------------------------------------------------------------
  // Helpers about the building blocks of `Search`
  // ---------------------------------------------------------------------------

  /** A tagged entry belongs to `Tag(layer, fs)` exactly when it carries `layer` and a feature of `fs`. */
  lemma InTagIff(layer: Layer, fs: seq<Feature>, m: MatchedResult)
    ensures m in Tag(layer, fs) <==> m.layer == layer && m.feature in fs
  {
    var t := Tag(layer, fs);
    TagAt(layer, fs);
    if m.layer == layer && m.feature in fs {
      var k :| 0 <= k < |fs| && fs[k] == m.feature;
      assert t[k] == m;
    }
  }

  lemma {:induction false} OfLayerAppend(a: seq<MatchedResult>, b: seq<MatchedResult>, layer: Layer)
    ensures OfLayer(a + b, layer) == OfLayer(a, layer) + OfLayer(b, layer)
    decreases |b|
  {
    if b == [] {
      assert a + b == a;
    } else {
      var n := |b| - 1;
      assert (a + b)[..|a + b| - 1] == a + b[..n];
      OfLayerAppend(a, b[..n], layer);
    }
  }

  lemma {:induction false} OfLayerTag(tagged: Layer, fs: seq<Feature>, layer: Layer)
    ensures OfLayer(Tag(tagged, fs), layer) == if tagged == layer then fs else []
    decreases |fs|
  {
    if fs != [] {
      var n := |fs| - 1;
      var t := Tag(tagged, fs);
      assert t[..|t| - 1] == Tag(tagged, fs[..n]);
      OfLayerTag(tagged, fs[..n], layer);
      assert fs[..n] + [fs[n]] == fs;
    }
  }

  /** The run of `Search`'s results tagged with `layer`: the point, building or parcel matches. */
  function LayerRun(layer: Layer, mp: seq<Feature>, mb: seq<Feature>, mc: seq<Feature>): seq<Feature>
  {
    match layer
    case Points => mp
    case Buildings => mb
    case Parcels => mc
  }

  /** Projecting the results of `Search` on one tag gives back that layer's matches. */
  lemma ResultsOfLayer(mp: seq<Feature>, mb: seq<Feature>, mc: seq<Feature>, layer: Layer)
    ensures OfLayer(Tag(Points, mp) + Tag(Buildings, mb) + Tag(Parcels, mc), layer) == LayerRun(layer, mp, mb, mc)
  {
    var tp, tb, tc := Tag(Points, mp), Tag(Buildings, mb), Tag(Parcels, mc);
    OfLayerAppend(tp + tb, tc, layer);
    OfLayerAppend(tp, tb, layer);
    OfLayerTag(Points, mp, layer);
    OfLayerTag(Buildings, mb, layer);
    OfLayerTag(Parcels, mc, layer);
    match layer
    case Points =>
      assert OfLayer(tp, layer) + OfLayer(tb, layer) == mp;
    case Buildings =>
      assert OfLayer(tp, layer) + OfLayer(tb, layer) == mb;
    case Parcels =>
      assert OfLayer(tp, layer) + OfLayer(tb, layer) == [];
  }

  // ---------------------------------------------------------------------------
  // The length threshold
  // ---------------------------------------------------------------------------

  /**
   * A lowered query of two characters or fewer produces no results and two
   * empty (not missing) highlight collections, whatever the store holds.
   */
  lemma ShortQueryClears(raw: string, store: Store)
    requires |Lower(raw)| <= 2
    ensures Search(raw, store) == SearchOutput([], [], [])
  {
  }

  /** No feature of any layer matches the (lowered) query. */
  ghost predicate NothingMatches(store: Store, query: string)
  {
    && (forall i :: 0 <= i < |store.points| ==> !Matches(Points, store.points[i], query))
    && (forall i :: 0 <= i < |store.buildings| ==> !Matches(Buildings, store.buildings[i], query))
    && (forall i :: 0 <= i < |store.parcels| ==> !Matches(Parcels, store.parcels[i], query))
  }

  /**
   * The result list is empty exactly when the query is too short or no
   * feature of any layer matches it; and an empty result list comes with
   * empty highlight collections.
   */
  lemma NoResultsIff(raw: string, store: Store)
    ensures Search(raw, store).results == [] <==> |Lower(raw)| <= 2 || NothingMatches(store, Lower(raw))
    ensures Search(raw, store).results == [] ==>
              Search(raw, store).highlightPoints == [] && Search(raw, store).highlightGeometries == []
  {
    var query := Lower(raw);
    if |query| > 2 {
      var mp := Filter(Points, store.points, query);
      var mb := Filter(Buildings, store.buildings, query);
      var mc := Filter(Parcels, store.parcels, query);
      Seqs.FilterEmptyIff(store.points, Matcher(Points, query));
      Seqs.FilterEmptyIff(store.buildings, Matcher(Buildings, query));
      Seqs.FilterEmptyIff(store.parcels, Matcher(Parcels, query));
      var rs := Tag(Points, mp) + Tag(Buildings, mb) + Tag(Parcels, mc);
      assert |rs| == |mp| + |mb| + |mc|;
      assert Search(raw, store) == SearchOutput(rs, mp, Join(mp, store) + mb + mc);
    }
  }

  /** Only the lowered query matters: the case of the typed text does not. */
  lemma QueryCaseIrrelevant(raw: string, store: Store)
    ensures Search(Lower(raw), store) == Search(raw, store)
  {
    LowerIdempotent(raw);
  }

  // ---------------------------------------------------------------------------
  // Which features are returned, and in which order
  // ---------------------------------------------------------------------------

  /**
   * A feature is returned under a layer's tag exactly when the lowered query
   * is longer than two characters, the feature is in that layer's collection,
   * and one of the layer's searched attributes is truthy and contains the
   * query once lowered.
   */
  lemma ResultMembershipIff(raw: string, store: Store, layer: Layer, f: Feature)
    ensures Match(layer, f) in Search(raw, store).results
        <==> |Lower(raw)| > 2 && f in Collection(store, layer) && Matches(layer, f, Lower(raw))
  {
    var query := Lower(raw);
    if |query| > 2 {
      var mp := Filter(Points, store.points, query);
      var mb := Filter(Buildings, store.buildings, query);
      var mc := Filter(Parcels, store.parcels, query);
      var m := Match(layer, f);
      InTagIff(Points, mp, m);
      InTagIff(Buildings, mb, m);
      InTagIff(Parcels, mc, m);
      Seqs.FilterMembership(Collection(store, layer), Matcher(layer, query), f);
    }
  }

  /**
   * Each layer contributes at most one entry per feature it holds, so the
   * result list is never longer than the three collections together.
   */
  lemma ResultCount(raw: string, store: Store)
    ensures forall layer :: |OfLayer(Search(raw, store).results, layer)| <= |Collection(store, layer)|
    ensures |Search(raw, store).results| <= |store.points| + |store.buildings| + |store.parcels|
  {
    var query := Lower(raw);
    if |query| > 2 {
      var mp := Filter(Points, store.points, query);
      var mb := Filter(Buildings, store.buildings, query);
      var mc := Filter(Parcels, store.parcels, query);
      ResultsOfLayer(mp, mb, mc, Points);
      ResultsOfLayer(mp, mb, mc, Buildings);
      ResultsOfLayer(mp, mb, mc, Parcels);
    }
  }

  /** Point entries come first, then building entries, then parcel entries. */
  ghost predicate GroupedByLayer(rs: seq<MatchedResult>)
  {
    forall i, j :: 0 <= i < j < |rs| ==> Rank(rs[i].layer) <= Rank(rs[j].layer)
  }

  lemma ConcatenationGrouped(tp: seq<MatchedResult>, tb: seq<MatchedResult>, tc: seq<MatchedResult>)
    requires forall k :: 0 <= k < |tp| ==> tp[k].layer == Points
    requires forall k :: 0 <= k < |tb| ==> tb[k].layer == Buildings
    requires forall k :: 0 <= k < |tc| ==> tc[k].layer == Parcels
    ensures GroupedByLayer(tp + tb + tc)
  {
    var rs := tp + tb + tc;
    forall i, j | 0 <= i < j < |rs|
      ensures Rank(rs[i].layer) <= Rank(rs[j].layer)
    {
      if i >= |tp| + |tb| {
        assert rs[i] == tc[i - |tp| - |tb|] && rs[j] == tc[j - |tp| - |tb|];
      } else if i >= |tp| {
        assert rs[i] == tb[i - |tp|];
        if j < |tp| + |tb| {
          assert rs[j] == tb[j - |tp|];
        } else {
          assert rs[j] == tc[j - |tp| - |tb|];
        }
      }
    }
  }

  /** Every point result precedes every building result, which precedes every parcel result. */
  lemma ResultsGroupedByLayer(raw: string, store: Store)
    ensures GroupedByLayer(Search(raw, store).results)
  {
    var query := Lower(raw);
    if |query| > 2 {
      TagAt(Points, Filter(Points, store.points, query));
      TagAt(Buildings, Filter(Buildings, store.buildings, query));
      TagAt(Parcels, Filter(Parcels, store.parcels, query));
      ConcatenationGrouped(Tag(Points, Filter(Points, store.points, query)),
                           Tag(Buildings, Filter(Buildings, store.buildings, query)),
                           Tag(Parcels, Filter(Parcels, store.parcels, query)));
    }
  }

  /**
   * Within one layer, the results are that layer's collection filtered by the
   * match test, so collection order is kept (see FilterIsMatchingSubsequence).
   */
  lemma GroupsAreFilters(raw: string, store: Store, layer: Layer)
    requires |Lower(raw)| > 2
    ensures OfLayer(Search(raw, store).results, layer) == Filter(layer, Collection(store, layer), Lower(raw))
  {
    var query := Lower(raw);
    var mp := Filter(Points, store.points, query);
    var mb := Filter(Buildings, store.buildings, query);
    var mc := Filter(Parcels, store.parcels, query);
    ResultsOfLayer(mp, mb, mc, layer);
  }

  // ---------------------------------------------------------------------------
  // The highlight collections
  // ---------------------------------------------------------------------------

  /** The highlighted points are exactly the point results' features, in order (so as many). */
  lemma HighlightPointsArePointResults(raw: string, store: Store)
    ensures Search(raw, store).highlightPoints == OfLayer(Search(raw, store).results, Points)
  {
    var query := Lower(raw);
    if |query| > 2 {
      ResultsOfLayer(Filter(Points, store.points, query), Filter(Buildings, store.buildings, query),
                     Filter(Parcels, store.parcels, query), Points);
    }
  }

  /** How many lookups from `ps` succeed: one per building found plus one per parcel found. */
  ghost function ResolvedCount(ps: seq<Feature>, store: Store): nat
    decreases |ps|
  {
    if ps == [] then 0
    else
      var p := ps[|ps| - 1];
      ResolvedCount(ps[..|ps| - 1], store)
        + (if ResolvesBuilding(p, store.buildings) then 1 else 0)
        + (if ResolvesParcel(p, store.parcels) then 1 else 0)
  }

  /** The join contributes one geometry per successful lookup. */
  lemma {:induction false} JoinLength(ps: seq<Feature>, store: Store)
    ensures |Join(ps, store)| == ResolvedCount(ps, store)
    decreases |ps|
  {
    if ps != [] {
      JoinLength(ps[..|ps| - 1], store);
    }
  }

  /**
   * The highlight geometries are the geometries reached from the matched
   * points (point by point, building before parcel), then the matched
   * buildings, then the matched parcels; their number is the number of
   * successful lookups plus the building and parcel result counts.
   */
  lemma HighlightGeometriesLayout(raw: string, store: Store)
    ensures var out := Search(raw, store);
            out.highlightGeometries
              == Join(OfLayer(out.results, Points), store) + OfLayer(out.results, Buildings) + OfLayer(out.results, Parcels)
    ensures var out := Search(raw, store);
            |out.highlightGeometries|
              == ResolvedCount(OfLayer(out.results, Points), store)
                 + |OfLayer(out.results, Buildings)| + |OfLayer(out.results, Parcels)|
  {
    var query := Lower(raw);
    if |query| > 2 {
      var mp := Filter(Points, store.points, query);
      var mb := Filter(Buildings, store.buildings, query);
      var mc := Filter(Parcels, store.parcels, query);
      ResultsOfLayer(mp, mb, mc, Points);
      ResultsOfLayer(mp, mb, mc, Buildings);
      ResultsOfLayer(mp, mb, mc, Parcels);
      JoinLength(mp, store);
    } else {
      JoinLength([], store);
    }
  }

  /** A point whose code resolves puts the first building with that code at the head of its lookups. */
  lemma CrossRefsStartWithBuilding(p: Feature, store: Store, first: nat)
    requires Truthy(p, POINT_BLDG_CODE)
    requires IsFirstWith(store.buildings, BLDG_CODE, p.properties[POINT_BLDG_CODE], first)
    ensures multiset(CrossRefs(p, store))[store.buildings[first]] >= 1
  {
    FindReturnsFirst(store.buildings, BLDG_CODE, p.properties[POINT_BLDG_CODE], first);
    assert BuildingRef(p, store.buildings) == [store.buildings[first]];
    assert CrossRefs(p, store)[0] == store.buildings[first];
  }

  /** Two points of a run that resolve to the same building make the join hold it at least twice. */
  lemma JoinHoldsTwice(ps: seq<Feature>, store: Store, ki: nat, kj: nat, first: nat)
    requires ki < kj < |ps|
    requires Truthy(ps[ki], POINT_BLDG_CODE)
    requires HasValue(ps[kj], POINT_BLDG_CODE, ps[ki].properties[POINT_BLDG_CODE])
    requires IsFirstWith(store.buildings, BLDG_CODE, ps[ki].properties[POINT_BLDG_CODE], first)
    ensures multiset(Join(ps, store))[store.buildings[first]] >= 2
  {
    var b := store.buildings[first];
    CrossRefsStartWithBuilding(ps[ki], store, first);
    CrossRefsStartWithBuilding(ps[kj], store, first);
    Seqs.FlatMapAtLeast(ps, Linker(store), b, kj);
    Seqs.FlatMapAtLeast(ps[..kj], Linker(store), b, ki);
    assert ps[..kj][ki] == ps[ki];
  }

  /**
   * No deduplication: two matching points that carry the same building code
   * each add the building that code resolves to, so it is highlighted at
   * least twice.
   */
  lemma DuplicatesKept(raw: string, store: Store, i: nat, j: nat, first: nat)
    requires |Lower(raw)| > 2
    requires i < j < |store.points|
    requires Matches(Points, store.points[i], Lower(raw)) && Matches(Points, store.points[j], Lower(raw))
    requires Truthy(store.points[i], POINT_BLDG_CODE)
    requires HasValue(store.points[j], POINT_BLDG_CODE, store.points[i].properties[POINT_BLDG_CODE])
    requires IsFirstWith(store.buildings, BLDG_CODE, store.points[i].properties[POINT_BLDG_CODE], first)
    ensures multiset(Search(raw, store).highlightGeometries)[store.buildings[first]] >= 2
  {
    var query := Lower(raw);
    var mp := Filter(Points, store.points, query);
    var mb := Filter(Buildings, store.buildings, query);
    var mc := Filter(Parcels, store.parcels, query);
    var ki, kj := Seqs.FilterPositions(store.points, Matcher(Points, query), i, j);
    JoinHoldsTwice(mp, store, ki, kj, first);
    var b := store.buildings[first];
    assert multiset(Join(mp, store) + mb + mc)[b] >= multiset(Join(mp, store))[b];
  }

}

=== FILE: scenarios.dfy ===
/** Worked instances of the search behaviour on small stores. */
module Scenarios {

  import opened Text
  import opened Features
  import opened SearchEngine
  import opened Projector
  import SearchProperties
  import Seqs

  const ORIGIN := Position(35.5, 33.9)

  /** A point named "Saifi House" from the 1930s. */
  function SaifiHouse(): Feature
  {
    Feature(map[BLDG_NAME := "Saifi House", PERIOD := "1930-1939"], Point(ORIGIN))
  }

  /** "saifi" occurs at the start of the lowered name "saifi house". */
  lemma SaifiNameMatches()
    ensures Matches(Points, SaifiHouse(), "saifi")
  {
    var name := Lower("Saifi House");
    assert name[..5] == "saifi";
    assert OccursAt(name, "saifi", 0);
  }

  /** "saifi" is already lower case. */
  lemma SaifiIsLower()
    ensures Lower("saifi") == "saifi"
  {
    var lowered := Lower("saifi");
    assert lowered[0] == 's' && lowered[1] == 'a' && lowered[2] == 'i' && lowered[3] == 'f' && lowered[4] == 'i';
  }

  /** Typing "saifi" finds the point by its name and lists it as "Saifi House". */
  lemma SaifiQueryFindsPoint()
    ensures |Search("saifi", Store([SaifiHouse()], [], [])).results| == 1
    ensures Search("saifi", Store([SaifiHouse()], [], [])).results[0] == Match(Points, SaifiHouse())
    ensures Search("saifi", Store([SaifiHouse()], [], [])).highlightPoints == [SaifiHouse()]
    ensures Label(Match(Points, SaifiHouse())) == "Saifi House"
  {
    var store := Store([SaifiHouse()], [], []);
    SaifiIsLower();
    SaifiFilter();
    var mp := Filter(Points, store.points, "saifi");
    var mb := Filter(Buildings, store.buildings, "saifi");
    var mc := Filter(Parcels, store.parcels, "saifi");
    assert mb == [] && mc == [];
    TagAt(Points, mp);
    assert Search("saifi", store).results == Tag(Points, mp) + Tag(Buildings, mb) + Tag(Parcels, mc);
  }

  /** The points filter for "saifi" keeps the one point. */
  lemma SaifiFilter()
    ensures Filter(Points, [SaifiHouse()], "saifi") == [SaifiHouse()]
  {
    SaifiNameMatches();
    var points := [SaifiHouse()];
    Seqs.FilterStep(points, Matcher(Points, "saifi"), 0);
    assert points[..1] == points;
  }

  /** Typing "SAIFI" gives the same outcome: the query is lowered first. */
  lemma UpperCaseQuerySame()
    ensures Search("SAIFI", Store([SaifiHouse()], [], [])) == Search("saifi", Store([SaifiHouse()], [], []))
  {
    var lowered := Lower("SAIFI");
    assert lowered[0] == 's' && lowered[1] == 'a' && lowered[2] == 'i' && lowered[3] == 'f' && lowered[4] == 'i';
    assert lowered == "saifi";
    SearchProperties.QueryCaseIrrelevant("SAIFI", Store([SaifiHouse()], [], []));
  }

  /** An empty query clears everything. */
  lemma EmptyQueryClears(store: Store)
    ensures Search("", store) == SearchOutput([], [], [])
  {
  }

}

=== FILE: search.dfy ===
/**
 * The search-input handler: for a query and the three loaded collections it
 * yields the ordered, tagged match list and the two highlight collections.
 * `Search` is the declarative definition; `HandleInput` is the handler's own
 * sequence of `forEach` loops and pushes, proved to compute the same thing.
 */
module SearchEngine {

  import opened Text
  import opened Features
  import opened CrossReference
  import Seqs

  /** The three searched datasets, in the order the handler scans them. */
  datatype Layer = Points | Buildings | Parcels

  /** One entry of `matchedFeatures`: the type tag and the matched feature. */
  datatype MatchedResult = Match(layer: Layer, feature: Feature)

  /** What one keystroke produces. */
  datatype SearchOutput = SearchOutput(
    results: seq<MatchedResult>,
    highlightPoints: seq<Feature>,
    highlightGeometries: seq<Feature>)

  /** The position of a layer in the scan order. */
  function Rank(layer: Layer): nat
  {
    match layer
    case Points => 0
    case Buildings => 1
    case Parcels => 2
  }

  /** The collection a layer is scanned from. */
  function Collection(store: Store, layer: Layer): seq<Feature>
  {
    match layer
    case Points => store.points
    case Buildings => store.buildings
    case Parcels => store.parcels
  }

  /**
   * `properties[key] && properties[key].toLowerCase().includes(query)`: the
   * attribute is non-empty and the query occurs somewhere in its lowered
   * value, which is therefore at least as long as the query.
   */
  function AttrContains(f: Feature, key: string, query: string): (b: bool)
    ensures b <==> Truthy(f, key) && exists i :: OccursAt(Lower(f.properties[key]), query, i)
    ensures b ==> |query| <= |f.properties[key]|
  {
    Truthy(f, key) && Includes(Lower(f.properties[key]), query)
  }

  /** The attributes each layer is searched on, in the order the handler tests them. */
  function SearchedKeys(layer: Layer): seq<string>
  {
    match layer
    case Points => [BLDG_NAME, STREET, PERIOD]
    case Buildings => [BLDG_CODE]
    case Parcels => [PLOT_NO, PID]
  }

  /**
   * The per-layer match test of the handler, against the already-lowered
   * query: some searched attribute of the layer contains the query.
   */
  function Matches(layer: Layer, f: Feature, query: string): (b: bool)
    ensures b <==> exists k :: 0 <= k < |SearchedKeys(layer)| && AttrContains(f, SearchedKeys(layer)[k], query)
  {
    var keys := SearchedKeys(layer);
    match layer
    case Points =>
      assert keys[0] == BLDG_NAME && keys[1] == STREET && keys[2] == PERIOD;
      AttrContains(f, BLDG_NAME, query) || AttrContains(f, STREET, query) || AttrContains(f, PERIOD, query)
    case Buildings =>
      assert keys[0] == BLDG_CODE;
      AttrContains(f, BLDG_CODE, query)
    case Parcels =>
      assert keys[0] == PLOT_NO && keys[1] == PID;
      AttrContains(f, PLOT_NO, query) || AttrContains(f, PID, query)
  }

  /** The match test of a layer, as the callback `forEach` runs. */
  function Matcher(layer: Layer, query: string): Feature -> bool
  {
    f => Matches(layer, f, query)
  }

  /** The features of `fs` that match, in collection order. */
  function Filter(layer: Layer, fs: seq<Feature>, query: string): seq<Feature>
  {
    Seqs.Filter(fs, Matcher(layer, query))
  }

  /** The `matchedFeatures` entries pushed for `fs`, tagged with `layer`. */
  function Tag(layer: Layer, fs: seq<Feature>): (r: seq<MatchedResult>)
    ensures |r| == |fs|
    decreases |fs|
  {
    if fs == [] then []
    else Tag(layer, fs[..|fs| - 1]) + [Match(layer, fs[|fs| - 1])]
  }

  /** The features of the results tagged with `layer`, in result order. */
  function OfLayer(rs: seq<MatchedResult>, layer: Layer): seq<Feature>
    decreases |rs|
  {
    if rs == [] then []
    else
      var last := rs[|rs| - 1];
      OfLayer(rs[..|rs| - 1], layer) + (if last.layer == layer then [last.feature] else [])
  }

  /** The cross-referenced geometries of a run of matched points, point by point. */
  function Join(ps: seq<Feature>, store: Store): seq<Feature>
  {
    Seqs.FlatMap(ps, Linker(store))
  }

  /** The lookups of one point, as a callback. */
  function Linker(store: Store): Feature -> seq<Feature>
  {
    p => CrossRefs(p, store)
  }

  /**
   * The handler's outcome for the raw input `raw`: nothing for a lowered query
   * of two characters or fewer; otherwise point, building and parcel matches
   * in that order, the matched points, and the geometries reached from the
   * points followed by the matched buildings and parcels.
   */
  function Search(raw: string, store: Store): SearchOutput
  {
    var query := Lower(raw);
    if |query| > 2 then
      var mp := Filter(Points, store.points, query);
      var mb := Filter(Buildings, store.buildings, query);
      var mc := Filter(Parcels, store.parcels, query);
      SearchOutput(
        Tag(Points, mp) + Tag(Buildings, mb) + Tag(Parcels, mc),
        mp,
        Join(mp, store) + mb + mc)
    else
      SearchOutput([], [], [])
  }

  /**
   * The points `forEach` (script.js:190-219): each matching point is pushed as a
   * result and as a highlight point, then its building and its parcel are
   * looked up with `find` and pushed onto the highlight geometries when found.
   */
  method ScanPoints(store: Store, query: string)
    returns (matched: seq<MatchedResult>, highlightPoints: seq<Feature>, highlightGeometries: seq<Feature>)
    ensures highlightPoints == Filter(Points, store.points, query)
    ensures matched == Tag(Points, highlightPoints)
    ensures highlightGeometries == Join(highlightPoints, store)
  {
    var points := store.points;
    matched, highlightPoints, highlightGeometries := [], [], [];
    var i := 0;
    while i < |points|
      invariant 0 <= i <= |points|
      invariant highlightPoints == Filter(Points, points[..i], query)
      invariant matched == Tag(Points, highlightPoints)
      invariant highlightGeometries == Join(highlightPoints, store)
    {
      var p := points[i];
      Seqs.FilterStep(points, Matcher(Points, query), i);
      if Matches(Points, p, query) {
        TagStep(Points, highlightPoints, p);
        JoinStep(highlightPoints, p, store);
        matched := matched + [Match(Points, p)];
        highlightPoints := highlightPoints + [p];
        var refs := LinkPoint(p, store);
        highlightGeometries := highlightGeometries + refs;
      }
      i := i + 1;
    }
    assert points[..i] == points;
  }

  /**
   * script.js:199-217: the building whose code equals the point's code, then the
   * parcel whose plot number equals the point's, each pushed only when the
   * point's attribute is truthy and `find` returns a feature.
   */
  method LinkPoint(p: Feature, store: Store) returns (refs: seq<Feature>)
    ensures refs == CrossRefs(p, store)
  {
    refs := [];
    if Truthy(p, POINT_BLDG_CODE) {
      var building := Find(store.buildings, BLDG_CODE, p.properties[POINT_BLDG_CODE]);
      if building.Some? {
        refs := refs + [building.value];
      }
    }
    if Truthy(p, POINT_PLOT_NO) {
      var parcel := Find(store.parcels, PLOT_NO, p.properties[POINT_PLOT_NO]);
      if parcel.Some? {
        refs := refs + [parcel.value];
      }
    }
  }

  /** Entry k of the tagged list carries the layer and the k-th feature. */
  lemma {:induction false} TagAt(layer: Layer, fs: seq<Feature>)
    ensures forall k :: 0 <= k < |fs| ==> Tag(layer, fs)[k] == Match(layer, fs[k])
    decreases |fs|
  {
    if fs != [] {
      TagAt(layer, fs[..|fs| - 1]);
    }
  }

  /** Pushing one more match onto `matchedFeatures`. */
  lemma TagStep(layer: Layer, fs: seq<Feature>, f: Feature)
    ensures Tag(layer, fs + [f]) == Tag(layer, fs) + [Match(layer, f)]
  {
    assert (fs + [f])[..|fs|] == fs;
  }

  /** One more matched point adds its lookups at the end. */
  lemma JoinStep(ps: seq<Feature>, p: Feature, store: Store)
    ensures Join(ps + [p], store) == Join(ps, store) + CrossRefs(p, store)
  {
    Seqs.FlatMapStep(ps, p, Linker(store));
  }

  /**
   * The buildings and the parcels `forEach` (script.js:222-238): each matching
   * feature is pushed as a result of its layer and as a highlight geometry.
   */
  method ScanPolygons(layer: Layer, fs: seq<Feature>, query: string)
    returns (matched: seq<MatchedResult>, highlightGeometries: seq<Feature>)
    ensures highlightGeometries == Filter(layer, fs, query)
    ensures matched == Tag(layer, highlightGeometries)
  {
    matched, highlightGeometries := [], [];
    var i := 0;
    while i < |fs|
      invariant 0 <= i <= |fs|
      invariant highlightGeometries == Filter(layer, fs[..i], query)
      invariant matched == Tag(layer, highlightGeometries)
    {
      var f := fs[i];
      Seqs.FilterStep(fs, Matcher(layer, query), i);
      if Matches(layer, f, query) {
        TagStep(layer, highlightGeometries, f);
        matched := matched + [Match(layer, f)];
        highlightGeometries := highlightGeometries + [f];
      }
      i := i + 1;
    }
    assert fs[..i] == fs;
  }

  /**
   * The input handler as written: lower the query, test its length, then the
   * three scans in order, each appending to `matchedFeatures` and to the
   * highlight geometries after the previous one.
   */
  method HandleInput(raw: string, store: Store) returns (out: SearchOutput)
    ensures out == Search(raw, store)
  {
    var query := Lower(raw);
    if |query| > 2 {
      var pointResults, highlightPoints, joined := ScanPoints(store, query);
      var buildingResults, buildingGeometries := ScanPolygons(Buildings, store.buildings, query);
      var parcelResults, parcelGeometries := ScanPolygons(Parcels, store.parcels, query);
      out := SearchOutput(
        pointResults + buildingResults + parcelResults,
        highlightPoints,
        joined + buildingGeometries + parcelGeometries);
    } else {
      out := SearchOutput([], [], []);
    }
  }

}

=== FILE: seqs.dfy ===
/**
 * Generic sequence operations behind the handler's `forEach` + `push`
 * accumulation: keeping the elements that pass a test, in order, and
 * concatenating what each element contributes, in order.
 */
module Seqs {

  /** The elements of `s` that pass `keep`, in order. */
  function Filter<T>(s: seq<T>, keep: T -> bool): (r: seq<T>)
    ensures |r| <= |s|
    ensures forall x :: x in r ==> x in s && keep(x)
    ensures forall i :: 0 <= i < |s| && keep(s[i]) ==> s[i] in r
    decreases |s|
  {
    if s == [] then []
    else
      var init := s[..|s| - 1];
      var last := s[|s| - 1];
      assert forall i :: 0 <= i < |init| ==> init[i] == s[i];
      Filter(init, keep) + (if keep(last) then [last] else [])
  }

  /** The positions of the elements of `s` that pass `keep`, ascending. */
  function MatchingIndices<T>(s: seq<T>, keep: T -> bool): (idx: seq<nat>)
    ensures forall k :: 0 <= k < |idx| ==> idx[k] < |s| && keep(s[idx[k]])
    ensures forall k, l :: 0 <= k < l < |idx| ==> idx[k] < idx[l]
    ensures forall i :: 0 <= i < |s| && keep(s[i]) ==> i in idx
    decreases |s|
  {
    if s == [] then []
    else
      var n := |s| - 1;
      MatchingIndices(s[..n], keep) + (if keep(s[n]) then [n] else [])
  }

  /**
   * The filter keeps order: its k-th element is the element at the k-th
   * passing position, so the result is the passing subsequence of `s`.
   */
  lemma {:induction false} FilterIsMatchingSubsequence<T>(s: seq<T>, keep: T -> bool)
    ensures |Filter(s, keep)| == |MatchingIndices(s, keep)|
    ensures forall k :: 0 <= k < |Filter(s, keep)| ==> Filter(s, keep)[k] == s[MatchingIndices(s, keep)[k]]
    decreases |s|
  {
    if s != [] {
      var n := |s| - 1;
      FilterIsMatchingSubsequence(s[..n], keep);
      var r := Filter(s[..n], keep);
      var idx := MatchingIndices(s[..n], keep);
      forall k | 0 <= k < |r|
        ensures r[k] == s[idx[k]]
      {
        assert r[k] == s[..n][idx[k]];
      }
    }
  }

  /** One more step of the scan: the filter of a longer prefix. */
  lemma FilterStep<T>(s: seq<T>, keep: T -> bool, i: nat)
    requires i < |s|
    ensures Filter(s[..i + 1], keep) == Filter(s[..i], keep) + (if keep(s[i]) then [s[i]] else [])
  {
    assert s[..i + 1][..i] == s[..i];
  }

  /** An element is kept exactly when it is in `s` and passes. */
  lemma FilterMembership<T>(s: seq<T>, keep: T -> bool, x: T)
    ensures x in Filter(s, keep) <==> x in s && keep(x)
  {
    if x in s && keep(x) {
      var i :| 0 <= i < |s| && s[i] == x;
    }
  }

  /** The filter is empty exactly when nothing passes. */
  lemma FilterEmptyIff<T>(s: seq<T>, keep: T -> bool)
    ensures Filter(s, keep) == [] <==> forall i :: 0 <= i < |s| ==> !keep(s[i])
  {
    var r := Filter(s, keep);
    if r != [] {
      assert r[0] in r;
      var i :| 0 <= i < |s| && s[i] == r[0];
    }
  }

  /** In a strictly ascending index list, a smaller entry sits at an earlier position. */
  lemma IncreasingOrder(idx: seq<nat>, ki: nat, kj: nat)
    requires forall k, l :: 0 <= k < l < |idx| ==> idx[k] < idx[l]
    requires ki < |idx| && kj < |idx| && idx[ki] < idx[kj]
    ensures ki < kj
  {
  }

  lemma FilterPositions<T>(s: seq<T>, keep: T -> bool, i: nat, j: nat) returns (ki: nat, kj: nat)
    requires i < j < |s|
    requires keep(s[i]) && keep(s[j])
    ensures ki < kj < |Filter(s, keep)|
    ensures Filter(s, keep)[ki] == s[i] && Filter(s, keep)[kj] == s[j]
  {
    var idx := MatchingIndices(s, keep);
    assert i in idx && j in idx;
    ki :| 0 <= ki < |idx| && idx[ki] == i;
    kj :| 0 <= kj < |idx| && idx[kj] == j;
    IncreasingOrder(idx, ki, kj);
    FilterIsMatchingSubsequence(s, keep);
  }

  /** The concatenation of what `f` yields for each element of `s`, in order. */
  function FlatMap<T, U>(s: seq<T>, f: T -> seq<U>): seq<U>
    decreases |s|
  {
    if s == [] then []
    else FlatMap(s[..|s| - 1], f) + f(s[|s| - 1])
  }

  /** Appending one element appends its contribution. */
  lemma FlatMapStep<T, U>(s: seq<T>, x: T, f: T -> seq<U>)
    ensures FlatMap(s + [x], f) == FlatMap(s, f) + f(x)
  {
    assert (s + [x])[..|s|] == s;
  }

  /** What element `k` yields is counted in the whole, on top of what the elements before it yield. */
  lemma {:induction false} FlatMapAtLeast<T, U>(s: seq<T>, f: T -> seq<U>, x: U, k: nat)
    requires k < |s|
    ensures multiset(FlatMap(s, f))[x] >= multiset(FlatMap(s[..k], f))[x] + multiset(f(s[k]))[x]
    decreases |s|
  {
    var n := |s| - 1;
    var init := s[..n];
    assert multiset(FlatMap(init, f) + f(s[n])) == multiset(FlatMap(init, f)) + multiset(f(s[n]));
    if k < n {
      FlatMapAtLeast(init, f, x, k);
      assert init[..k] == s[..k];
    }
  }

}

=== FILE: text.dfy ===
/**
 * String operations the search handler relies on: `toLowerCase` (restricted
 * to ASCII letters) and `includes` (literal substring test).
 */
module Text {

  /** Lower-cases one character; only the ASCII letters 'A'..'Z' change. */
  function LowerChar(c: char): char
  {
    if 'A' <= c <= 'Z' then (c as int + 32) as char else c
  }

  /**
   * `s.toLowerCase()`, restricted to ASCII: every character is lowered in
   * place, so the length is kept, each upper-case letter becomes its
   * lower-case partner (so none survives), and every other character is
   * left alone.
   */
  function Lower(s: string): (r: string)
    ensures |r| == |s|
    ensures forall i :: 0 <= i < |r| ==> !('A' <= r[i] <= 'Z')
    ensures forall i :: 0 <= i < |s| && 'A' <= s[i] <= 'Z' ==> r[i] == (s[i] as int + 32) as char
    ensures forall i :: 0 <= i < |s| && !('A' <= s[i] <= 'Z') ==> r[i] == s[i]
  {
    seq(|s|, i requires 0 <= i < |s| => LowerChar(s[i]))
  }

  /** Lowering twice is lowering once. */
  lemma LowerIdempotent(s: string)
    ensures Lower(Lower(s)) == Lower(s)
  {
    var once := Lower(s);
    var twice := Lower(once);
    assert |twice| == |once|;
    forall i | 0 <= i < |once|
      ensures twice[i] == once[i]
    {
      assert once[i] == LowerChar(s[i]);
    }
  }

  /** `needle` occurs in `hay` starting at position `i`. */
  ghost predicate OccursAt(hay: string, needle: string, i: int)
  {
    0 <= i && i + |needle| <= |hay| && hay[i..i + |needle|] == needle
  }

  /**
   * `hay.includes(needle)`: a left-to-right scan that tries each start
   * position in turn. It agrees with the declarative "occurs somewhere".
   */
  function Includes(hay: string, needle: string): (b: bool)
    ensures b <==> exists i :: OccursAt(hay, needle, i)
    decreases |hay|
  {
    if |needle| > |hay| then
      assert forall i :: !OccursAt(hay, needle, i);
      false
    else if hay[..|needle|] == needle then
      assert OccursAt(hay, needle, 0);
      true
    else
      ShiftOccurrence(hay, needle);
      Includes(hay[1..], needle)
  }

  /** Occurrences in `hay[1..]` are the occurrences in `hay` past position 0, shifted by one. */
  lemma ShiftOccurrence(hay: string, needle: string)
    requires |hay| > 0
    requires !OccursAt(hay, needle, 0)
    ensures (exists i :: OccursAt(hay, needle, i)) <==> (exists i :: OccursAt(hay[1..], needle, i))
  {
    if i :| OccursAt(hay, needle, i) {
      assert i > 0;
      assert hay[1..][i - 1..i - 1 + |needle|] == hay[i..i + |needle|];
      assert OccursAt(hay[1..], needle, i - 1);
    }
    if i :| OccursAt(hay[1..], needle, i) {
      assert hay[1..][i..i + |needle|] == hay[i + 1..i + 1 + |needle|];
      assert OccursAt(hay, needle, i + 1);
    }
  }

}

=== FILE: wrappers.dfy ===
/** The optional value used wherever the source yields `undefined` for "not found". */
module Wrappers {

  datatype Option<+T> = None | Some(value: T)

}
